=== FILE: README.md ===
# incline trend estimation, modelled in Dafny

incline estimates the trend of a regularly sampled time series. All of the
logic is in `incline/trend.py`, and this project models that file's
functions:

- `naive_trend`: a finite-difference derivative built from pandas column
  arithmetic.
- `spline_trend` and `sgolay_trend`: take a smoothing spline or a
  Savitzky-Golay filter, read its smoothed value and a derivative at every
  row, and tag the rows.
- `trending`: reduces many tagged estimator outputs to one score per series
  id.

Modules:

- `Rows`: the row contract. It defines an input `Sample` (index label and
  value) and the `TrendRow` that every estimator emits: its index label, its value
  and five estimator columns. The naive estimator adds no `smoothed_value`
  column, and `None` stands for that absent column. It also
  defines `Tagged`, a row carrying its series' `id`, and `Option`, which
  stands for pandas' NaN.
- `Stats`: the pandas reductions `trending` uses, max and mean, with sum
  and min as helpers for the mean's bounds.
- `Columns`: pandas column arithmetic with NaN, which the naive estimator is
  written in. `shift` pads with NaN, element-wise difference propagates NaN,
  and the row-wise mean skips NaN.
- `Naive`: `naive_trend` as the code computes it. It also holds the
  estimator its documentation describes and lemmas showing that the two
  differ.
- `Fits`: `spline_trend` and `sgolay_trend`. The numerical fit is a
  parameter, a function value standing in for the library routine. Every
  property proved about these two wrappers therefore holds for any fit.
- `Ranking`: `trending`. It filters rows by derivative order, keeps the last
  k of them (Python's `[-k:]`), pools all frames by id, and reduces with max
  or mean. The result is a map from id to score.

Where the code and its docstrings disagree, the model follows the code:

- The naive docstring (incline/trend.py:12-14) describes the average of the
  step to the left and the step to the right. The code computes something
  else. For finite input without NaN, its first row is -2 and every later
  row is `((y[i-1] - y[i]) - 2) / 2` (see "## Findings").
- The `trending` docstring says the list is ordered from max to min
  (incline/trend.py:116). The code sorts nothing by score (pandas'
  groupby orders by id), and the model returns a map from id to score.
- The `trending` docstring says each item in the list produces one number
  (incline/trend.py:123-124). The code pools all frames and produces one
  number per id, so frames sharing an id give one score.

Other facts about the code that the model keeps:

- `naive_trend` accepts series of any length, including very short ones.
- `trending` raises no errors of its own. pandas fails on an empty list of
  frames, which the model keeps (`Trending` returns None). pandas also fails
  on an unknown aggregation name and on a frame missing the `id` or
  `derivative_order` column; those failures are left out (see "## Left
  out").
- The spline smoothing factor `s` defaults to 3.

## Model

| member | source | states |
|---|---|---|
| `Naive.NaiveTrend` | incline/trend.py:19-38 | one row per input row in input order with index label and value kept; every row is tagged method "naive", derivative order 1, no function order and no smoothed value; row 0 holds -2 and row i >= 1 holds ((y[i-1] - y[i]) - 2) / 2 |
| `Naive.NaiveDerivative` | incline/trend.py:21-33 | the NaN-skipping row mean of the shifted difference column and the `y - y-2` column is -2 on the first row and ((y[i-1] - y[i]) - 2) / 2 on every later row |
| `Naive.PreviousMinusCurrent` | incline/trend.py:21-24 | the previous-minus-current column is NaN on the first row, which has no previous value, and y[i-1] - y[i] on every later row |
| `Naive.MinusTwo` | incline/trend.py:25 | the column of `y - y-2` is the constant -2 on every row, whatever the values |
| `Naive.NaiveCell` | incline/trend.py:24-33 | at one row, the NaN-skipping mean of the previous-minus-current cell and the constant -2 cell is -2 on row 0 (the first cell is NaN there) and ((y[i-1] - y[i]) - 2) / 2 on later rows |
| `Naive.NaiveOnLine` | incline/trend.py:12-33 | on a straight line of slope a, the code reports -2 at row 0 and -(a + 2) / 2 at every later row; that equals the slope a if and only if 3a = -2, so the code is not the averaged left/right slope its docstring describes |
| `Naive.IntendedDerivative` | incline/trend.py:12-14 | the docstring's estimator: the centred difference (y[i+1] - y[i-1]) / 2 inside, the one-sided step at each end, NaN only for a one-row series |
| `Naive.IntendedCell` | incline/trend.py:12-14 | at one row, the NaN-skipping mean of the backward and forward steps equals the docstring's case split (centred inside, one-sided at the ends, NaN for one row) |
| `Naive.IntendedOnLine` | incline/trend.py:12-14 | on a straight line with at least two rows, the docstring's estimator gives exactly the slope at every row, ends included |
| `Naive.NaiveAgainstIntended` | incline/trend.py:24-25 | for the series 0, 1, 2 the code yields -2, -1.5, -1.5 while the docstring's estimator yields 1, 1, 1 |
| `Columns.RowMean` | incline/trend.py:33 | the mean over a row skipping NaN is NaN exactly when every cell is NaN, and otherwise lies between the smallest and largest present cell |
| `Columns.RowMeanOfPair` | incline/trend.py:33 | for a two-cell row the NaN-skipping mean is the average of both cells, the single present cell, or NaN |
| `Fits.SplineTrend` | incline/trend.py:61-70 | one row per input row with index label and value kept; every row is tagged "spline" with the given function and derivative order; the smoothed value and the derivative come from one curve fitted against positions 0..n-1 and read at row i's position with nu = 0 and nu = derivative order; with derivative order 0 the derivative equals the smoothed value |
| `Fits.SplineIgnoresTimestamps` | incline/trend.py:61-66 | two series with the same values but any index labels get identical smoothed and derivative columns |
| `Fits.SgolayTrend` | incline/trend.py:95-105 | one row per input row with index label and value kept; every row is tagged "sgolay" with the given polynomial and derivative order; the smoothed value is the filter with deriv 0 and the derivative is the filter with the requested deriv, at the same row; with derivative order 0 the two coincide |
| `Ranking.AggregationNamed` | incline/trend.py:143-145 | "max" selects the maximum; "avg" is renamed to pandas' "mean" and selects the mean, as does "mean"; no other name is modelled |
| `Ranking.LastK` | incline/trend.py:141 | Python's s[-k:]: for k > 0 the last min(k, n) items; for k = 0 everything, because -0 is 0; for k < 0 all but the first -k items; always a suffix of s |
| `Ranking.Matching` | incline/trend.py:141 | the rows kept are exactly the frame's rows whose derivative order is the requested one |
| `Ranking.MatchingAppend` | incline/trend.py:141 | filtering by derivative order distributes over concatenation, so the frame's row order is kept |
| `Ranking.Window` | incline/trend.py:140-141 | a frame contributes a suffix of its matching rows: exactly min(k, count) rows for k > 0 (fewer when fewer exist), all of them for k = 0, all but the first -k for k < 0, and only rows of the requested order |
| `Ranking.Pooled` | incline/trend.py:139-142 | the concatenated table holds exactly the rows that lie in some frame's window |
| `Ranking.PooledAppend` | incline/trend.py:139-142 | concatenating the windows of a list of frames is the concatenation over its parts: every window row is kept with its repeats, in frame order |
| `Ranking.GroupValues` | incline/trend.py:145 | an id's group is non-empty exactly when the id occurs, and holds exactly the derivative values of that id's rows |
| `Ranking.PooledId` | incline/trend.py:142-145 | an id appears in the pooled table exactly when some frame contributes a row carrying it |
| `Ranking.GroupIsContributed` | incline/trend.py:142-145 | an id's group in the pooled table holds exactly the values the id contributes across all frames, so frames sharing an id are pooled |
| `Ranking.Trending` | incline/trend.py:139-148 | no result for an empty list of frames (pandas cannot concatenate nothing); otherwise exactly one entry per id that has a contributing row, and none for other ids |
| `Ranking.TrendingMax` | incline/trend.py:143-147 | with any name that selects the maximum ("max"), an id's score is one of its contributed values and no contributed value exceeds it |
| `Ranking.TrendingMean` | incline/trend.py:143-147 | with any name that selects the mean ("avg", renamed to "mean", or "mean" itself), an id's score lies between the least and the greatest value the id contributes |
| `Stats.Max` | incline/trend.py:145 | the maximum bounds every element and is one of them |
| `Stats.Mean` | incline/trend.py:143-145 | the arithmetic mean lies between the minimum and the maximum |

## Findings

| source | as written | input that shows it | evidently intended | confidence | as-written member | corrected member |
|---|---|---|---|---|---|---|
| incline/trend.py:24-25 | two causes combine. First, the operands are in the wrong order: `y1_diff` on line 24 is previous minus current, a backward step with its sign flipped. Second, `y - y-2` on line 25 parses as `(y - y) - 2`, the constant -2, where `y - y_2` was meant. Even with `y_2` alone restored, the two columns would be y[i-1] - y[i] and y[i] - y[i+1], whose mean is the centred difference with its sign flipped. As written, the NaN-skipping mean is -2 on row 0 and ((y[i-1] - y[i]) - 2) / 2 after that | values 0, 1, 2 (slope 1) give -2, -1.5, -1.5 | the documented "look right, look left, average": the mean of y[i] - y[i-1] and y[i+1] - y[i], one-sided at the ends, which gives 1, 1, 1. This needs both the operand order and the parse corrected | high; not executed | `Naive.NaiveAgainstIntended` | `Naive.IntendedOnLine` |

`Naive.NaiveTrend` keeps the as-written formula, because that is what the
function returns. The corrected column is `Naive.IntendedDerivative`.
`Naive.IntendedOnLine` proves that it recovers the slope of any straight
line exactly.

## Left out

- The spline fit and the Savitzky-Golay filter are foreign numerical routines over floating point, so both are function parameters. This covers knot selection, the smoothing criterion, the polynomial fit and the filter's boundary handling. No property of the numbers they compute is claimed.
- Fits.SgolayTrend: the filter is read once per row index, so "one output per sample" is assumed of the library rather than checked. A filter returning a wrong-length array would make pandas reject the column assignment, and that is not modelled.
- Failures raised inside the libraries are not modelled, because the fit parameters are total functions. Examples are an even or too-long window, a polynomial order not below the window, a spline degree not below the number of points, and an unknown aggregation name. No custom error types exist in the code, and none are invented.
- Floating point is not modelled: values are mathematical reals, and NaN appears only where the code itself creates it (shifted cells). An input that already contains NaN is not modelled.
- The `column_value` parameter is not modelled: the value column is fixed. The input frame carries only an index label and a value, so any extra columns that `df.copy()` would carry along are not modelled.
- The unused `column_id` parameter of `trending` is not modelled; the code always groups on `id`.
- The output order of `trending` (pandas orders by id) and the renaming of its columns to `id` / `max_or_avg` are not modelled; the result is a map from id to score. The docstring's max-to-min ordering is not implemented by the code, so it is not claimed.
- Aggregation names other than "max", "avg" and "mean" are passed to pandas unchanged, which would interpret them on its own terms. They are not modelled.
- Ranking.TrendingMean: states that the score lies between the least and greatest contributed value. It does not state that the score times the number of pooled rows equals their sum, because the contributed values are a set and lose multiplicity.
- Stats.Mean: its contract gives the bounds, not the exact equation mean × count = sum, which the solver does not prove reliably over reals.
- Frames whose rows lack an `id` column (a pandas KeyError at the groupby) or a `derivative_order` column (an AttributeError at the filter) cannot be expressed, because every `Tagged` row has an id and every `TrendRow` a derivative order.
- The `__main__` block does nothing and is not modelled.

=== FILE: columns.dfy ===
/**
  The pandas column arithmetic the naive estimator is built from. A column is
  a sequence of possibly-missing reals: `None` is NaN. Element-wise arithmetic
  propagates NaN, `shift` pads with NaN, and a row-wise mean skips NaN.
 */
module Columns {
  import opened Rows
  import Stats

  type Column = seq<Option<real>>

  /** A fully populated column holding the given values. */
  function Observed(y: seq<real>): (c: Column)
  {
    seq(|y|, i requires 0 <= i < |y| => Some(y[i]))
  }

  /**
    Series.shift(p): row i takes the value p rows earlier (later for negative
    p); rows that would read outside the series become NaN.
   */
  function Shift(y: seq<real>, p: int): (c: Column)
  {
    seq(|y|, i requires 0 <= i < |y| => if 0 <= i - p < |y| then Some(y[i - p]) else None)
  }

  /** Element-wise difference of two aligned columns; NaN on either side gives NaN. */
  function Sub(a: Column, b: Column): (c: Column)
    requires |a| == |b|
  {
    seq(|a|, i requires 0 <= i < |a| =>
      if a[i].Some? && b[i].Some? then Some(a[i].value - b[i].value) else None)
  }

  /** Subtracting a scalar from every cell; NaN stays NaN. */
  function SubConst(a: Column, k: real): (c: Column)
  {
    seq(|a|, i requires 0 <= i < |a| => if a[i].Some? then Some(a[i].value - k) else None)
  }

  /** The non-missing cells of a row, in order. */
  function Present(cells: Column): (ys: seq<real>)
    ensures |ys| <= |cells|
    ensures |ys| == 0 <==> forall i :: 0 <= i < |cells| ==> cells[i].None?
    ensures forall v :: v in ys <==> Some(v) in cells
  {
    if |cells| == 0 then []
    else
      assert forall i :: 1 <= i < |cells| ==> cells[i] == cells[1..][i - 1];
      (if cells[0].Some? then [cells[0].value] else []) + Present(cells[1..])
  }

  /**
    DataFrame.mean(axis=1) on one row: the mean of the cells that are not NaN,
    and NaN only when every cell is.
   */
  function RowMean(cells: Column): (m: Option<real>)
    ensures m.None? <==> forall i :: 0 <= i < |cells| ==> cells[i].None?
    ensures m.Some? ==> Stats.Min(Present(cells)) <= m.value <= Stats.Max(Present(cells))
  {
    var ys := Present(cells);
    if |ys| == 0 then None else Some(Stats.Mean(ys))
  }

  /**
    The NaN-skipping mean of a two-cell row: the average of both cells, the
    one present cell, or NaN when both are missing.
   */
  function PairMean(a: Option<real>, b: Option<real>): Option<real>
  {
    match (a, b)
    case (Some(u), Some(v)) => Some((u + v) / 2.0)
    case (None, Some(v)) => Some(v)
    case (Some(u), None) => Some(u)
    case (None, None) => None
  }

  /** The row mean of a two-cell row agrees with the closed form `PairMean`. */
  lemma RowMeanOfPair(a: Option<real>, b: Option<real>)
    ensures RowMean([a, b]) == PairMean(a, b)
  {
    assert [a, b][1..] == [b];
    assert [b][1..] == [];
    var ys := Present([a, b]);
    if a.Some? && b.Some? {
      assert ys == [a.value, b.value];
      assert ys[1..] == [b.value] && [b.value][1..] == [];
      assert Stats.Sum([b.value]) == b.value;
      assert Stats.Sum(ys) == a.value + b.value;
    } else if a.Some? {
      assert ys == [a.value];
    } else if b.Some? {
      assert ys == [b.value];
    }
  }
}

=== FILE: fits.dfy ===
/**
  The smoothing estimators of incline/trend.py as wrappers around a fit they
  do not implement. The spline fit and the Savitzky-Golay filter are numerical
  library routines; here each is a parameter of the estimator, so every
  statement below holds whatever fit is supplied.
 */
module Fits {
  import opened Rows

  /** A fitted curve, evaluated at a position x with derivative order nu (nu = 0 is the curve itself). */
  type Curve = (real, int) -> real

  /** The spline fit: positions, values, spline degree k and smoothing factor s give a curve. */
  type SplineFit = (seq<real>, seq<real>, int, real) -> Curve

  /**
    The Savitzky-Golay filter, read at one sample: values, window length,
    polynomial order, derivative order and a row index give the filtered value
    (deriv = 0 is the smoothed value) at that row.
   */
  type SavgolFilter = (seq<real>, int, int, int, nat) -> real

  /** The positions 0, 1, ..., n-1 of an n-row frame after its index is reset. */
  function Positions(n: nat): (xs: seq<real>)
  {
    seq(n, i requires 0 <= i < n => i as real)
  }

  /** The tags every row of a smoothing estimator's output carries. */
  ghost predicate CarriesTags(table: seq<TrendRow>, methodName: string, functionOrder: int, derivativeOrder: int)
  {
    forall i :: 0 <= i < |table| ==>
      && table[i].derivativeMethod == methodName
      && table[i].functionOrder == Some(functionOrder)
      && table[i].derivativeOrder == derivativeOrder
      && table[i].smoothedValue.Some?
  }

  /**
    spline_trend: fits one spline to the values against the positions
    0..n-1 (the index labels play no part) and reads the smoothed value
    (nu = 0) and the requested derivative at each position. Defaults as in
    the code: degree 3, first derivative, smoothing factor 3.
   */
  function SplineTrend(series: seq<Sample>, fit: SplineFit, functionOrder: int := 3,
                       derivativeOrder: int := 1, s: real := 3.0): (table: seq<TrendRow>)
    ensures Aligned(table, series)
    ensures CarriesTags(table, "spline", functionOrder, derivativeOrder)
    ensures forall i :: 0 <= i < |table| ==>
      var curve := fit(Positions(|series|), Values(series), functionOrder, s);
      && table[i].smoothedValue == Some(curve(i as real, 0))
      && table[i].derivativeValue == curve(i as real, derivativeOrder)
    ensures derivativeOrder == 0 ==>
      forall i :: 0 <= i < |table| ==> table[i].smoothedValue == Some(table[i].derivativeValue)
  {
    var xs := Positions(|series|);
    var curve := fit(xs, Values(series), functionOrder, s);
    seq(|series|, i requires 0 <= i < |series| =>
      TrendRow(series[i].time, series[i].value, Some(functionOrder), Some(curve(xs[i], 0)),
               "spline", derivativeOrder, curve(xs[i], derivativeOrder)))
  }

  /**
    sgolay_trend: runs the filter twice over the values, once for the
    smoothed value (deriv = 0) and once for the requested derivative, and
    reads both at each row. Defaults as in the code: polynomial order 3,
    first derivative, window length 15.
   */
  function SgolayTrend(series: seq<Sample>, filter: SavgolFilter, functionOrder: int := 3,
                       derivativeOrder: int := 1, windowLength: int := 15): (table: seq<TrendRow>)
    ensures Aligned(table, series)
    ensures CarriesTags(table, "sgolay", functionOrder, derivativeOrder)
    ensures forall i :: 0 <= i < |table| ==>
      && table[i].smoothedValue == Some(filter(Values(series), windowLength, functionOrder, 0, i))
      && table[i].derivativeValue
           == filter(Values(series), windowLength, functionOrder, derivativeOrder, i)
    ensures derivativeOrder == 0 ==>
      forall i :: 0 <= i < |table| ==> table[i].smoothedValue == Some(table[i].derivativeValue)
  {
    var y := Values(series);
    seq(|series|, i requires 0 <= i < |series| =>
      TrendRow(series[i].time, series[i].value, Some(functionOrder),
               Some(filter(y, windowLength, functionOrder, 0, i)),
               "sgolay", derivativeOrder, filter(y, windowLength, functionOrder, derivativeOrder, i)))
  }

  /**
    The spline estimator ignores the index labels: two series with the same
    values, whatever their timestamps, get the same smoothed and derivative
    columns.
   */
  lemma SplineIgnoresTimestamps(a: seq<Sample>, b: seq<Sample>, fit: SplineFit,
                                functionOrder: int, derivativeOrder: int, s: real)
    requires Values(a) == Values(b)
    ensures var ta := SplineTrend(a, fit, functionOrder, derivativeOrder, s);
            var tb := SplineTrend(b, fit, functionOrder, derivativeOrder, s);
            |ta| == |tb| &&
            forall i :: 0 <= i < |ta| ==>
              ta[i].smoothedValue == tb[i].smoothedValue && ta[i].derivativeValue == tb[i].derivativeValue
  {
  }
}

=== FILE: naive.dfy ===
/**
  The naive estimator of incline/trend.py, modelled as the code computes it.

  The code takes y shifted down one row (the previous value), forms
  previous-minus-current, and forms a second column from an expression that
  parses as (y - y) - 2, a constant -2. The row mean skips NaN, so the first
  row (no previous value) gets -2 and every later row gets
  ((y[i-1] - y[i]) - 2) / 2. This is not the centred slope its documentation
  describes; `NaiveOnLine` and `NaiveAgainstIntended` make the gap explicit and
  `IntendedDerivative` is the estimator the documentation describes.
 */
module Naive {
  import opened Rows
  import opened Columns

  /** A series on a straight line: every step from one row to the next is `slope`. */
  ghost predicate OnLine(y: seq<real>, slope: real)
  {
    forall i :: 0 < i < |y| ==> y[i] - y[i - 1] == slope
  }

  /** Previous value minus current value, NaN on the first row. */
  function PreviousMinusCurrent(y: seq<real>): (c: Column)
    ensures |c| == |y|
    ensures forall i {:trigger c[i]} :: 0 <= i < |y| ==>
      c[i] == if i == 0 then None else Some(y[i - 1] - y[i])
  {
    Sub(Shift(y, 1), Observed(y))
  }

  /** The column of the expression that parses as (y - y) - 2. */
  function MinusTwo(y: seq<real>): (c: Column)
    ensures |c| == |y|
    ensures forall i {:trigger c[i]} :: 0 <= i < |y| ==> c[i] == Some(-2.0)
  {
    SubConst(Sub(Observed(y), Observed(y)), 2.0)
  }

  /** The NaN-skipping mean of the two difference columns at row i, in closed form. */
  lemma NaiveCell(y: seq<real>, i: int)
    requires 0 <= i < |y|
    ensures i == 0 ==> RowMean([PreviousMinusCurrent(y)[i], MinusTwo(y)[i]]) == Some(-2.0)
    ensures i > 0 ==> RowMean([PreviousMinusCurrent(y)[i], MinusTwo(y)[i]])
                      == Some(((y[i - 1] - y[i]) - 2.0) / 2.0)
  {
    var a := PreviousMinusCurrent(y)[i];
    var b := MinusTwo(y)[i];
    assert b == Some(-2.0);
    assert i == 0 ==> a == None;
    assert i > 0 ==> a == Some(y[i - 1] - y[i]);
    RowMeanOfPair(a, b);
  }

  /** `NaiveCell` at every row. */
  lemma NaiveCells(y: seq<real>)
    ensures forall i {:trigger PreviousMinusCurrent(y)[i]} :: 0 <= i < |y| ==>
      RowMean([PreviousMinusCurrent(y)[i], MinusTwo(y)[i]])
        == if i == 0 then Some(-2.0) else Some(((y[i - 1] - y[i]) - 2.0) / 2.0)
  {
    forall i | 0 <= i < |y|
      ensures RowMean([PreviousMinusCurrent(y)[i], MinusTwo(y)[i]])
        == if i == 0 then Some(-2.0) else Some(((y[i - 1] - y[i]) - 2.0) / 2.0)
    {
      NaiveCell(y, i);
    }
  }

  /** The derivative column exactly as the code forms it. */
  function NaiveDerivative(y: seq<real>): (d: seq<real>)
    ensures |d| == |y|
    ensures |y| > 0 ==> d[0] == -2.0
    ensures forall i {:trigger d[i]} :: 1 <= i < |y| ==> d[i] == ((y[i - 1] - y[i]) - 2.0) / 2.0
  {
    var previousMinusCurrent := PreviousMinusCurrent(y);
    var minusTwo := MinusTwo(y);
    NaiveCells(y);
    seq(|y|, i requires 0 <= i < |y| =>
      RowMean([previousMinusCurrent[i], minusTwo[i]]).value)
  }

  /**
    naive_trend: one row per input row, in order, tagged as a first
    derivative by the "naive" method, with no function order and no smoothed
    value; the derivative column is the literal formula above.
   */
  function NaiveTrend(series: seq<Sample>): (table: seq<TrendRow>)
    ensures Aligned(table, series)
    ensures forall i :: 0 <= i < |table| ==>
      && table[i].derivativeMethod == "naive"
      && table[i].derivativeOrder == 1
      && table[i].functionOrder == None
      && table[i].smoothedValue == None
    ensures |table| > 0 ==> table[0].derivativeValue == -2.0
    ensures forall i {:trigger table[i]} :: 1 <= i < |table| ==>
      table[i].derivativeValue == ((series[i - 1].value - series[i].value) - 2.0) / 2.0
  {
    var d := NaiveDerivative(Values(series));
    seq(|series|, i requires 0 <= i < |series| =>
      TrendRow(series[i].time, series[i].value, None, None, "naive", 1, d[i]))
  }

  /**
    On a straight line of slope a the code reports -2 at the first row and
    -(a + 2) / 2 everywhere else, which equals the true slope a only when
    a = -2/3.
   */
  lemma NaiveOnLine(y: seq<real>, slope: real)
    requires OnLine(y, slope)
    ensures |y| > 0 ==> NaiveDerivative(y)[0] == -2.0
    ensures forall i {:trigger NaiveDerivative(y)[i]} :: 1 <= i < |y| ==>
      NaiveDerivative(y)[i] == -(slope + 2.0) / 2.0
    ensures forall i {:trigger NaiveDerivative(y)[i]} :: 1 <= i < |y| ==>
      (NaiveDerivative(y)[i] == slope <==> 3.0 * slope == -2.0)
  {
  }

  /** Current value minus previous value, NaN on the first row. */
  function StepBack(y: seq<real>): (c: Column)
    ensures |c| == |y|
    ensures forall i {:trigger c[i]} :: 0 <= i < |y| ==> c[i] == if i == 0 then None else Some(y[i] - y[i - 1])
  {
    Sub(Observed(y), Shift(y, 1))
  }

  /** Next value minus current value, NaN on the last row. */
  function StepForward(y: seq<real>): (c: Column)
    ensures |c| == |y|
    ensures forall i {:trigger c[i]} :: 0 <= i < |y| ==>
      c[i] == if i == |y| - 1 then None else Some(y[i + 1] - y[i])
  {
    Sub(Shift(y, -1), Observed(y))
  }

  /** What the documented estimator gives at row i, by cases on the row's position. */
  ghost function IntendedAt(y: seq<real>, i: int): Option<real>
    requires 0 <= i < |y|
  {
    if |y| == 1 then None
    else if i == 0 then Some(y[1] - y[0])
    else if i == |y| - 1 then Some(y[i] - y[i - 1])
    else Some((y[i + 1] - y[i - 1]) / 2.0)
  }

  /** The NaN-skipping mean of the two one-sided steps at row i, in closed form. */
  lemma IntendedCell(y: seq<real>, i: int)
    requires 0 <= i < |y|
    ensures RowMean([StepBack(y)[i], StepForward(y)[i]]) == IntendedAt(y, i)
  {
    var a := StepBack(y)[i];
    var b := StepForward(y)[i];
    RowMeanOfPair(a, b);
    if |y| == 1 {
      assert a.None? && b.None?;
    } else if i == 0 {
      assert a.None? && b == Some(y[1] - y[0]);
    } else if i == |y| - 1 {
      assert a == Some(y[i] - y[i - 1]) && b.None?;
    } else {
      assert a == Some(y[i] - y[i - 1]) && b == Some(y[i + 1] - y[i]);
      assert (y[i] - y[i - 1]) + (y[i + 1] - y[i]) == y[i + 1] - y[i - 1];
    }
  }

  /** `IntendedCell` at every row. */
  lemma IntendedCells(y: seq<real>)
    ensures forall i {:trigger StepBack(y)[i]} :: 0 <= i < |y| ==>
      RowMean([StepBack(y)[i], StepForward(y)[i]]) == IntendedAt(y, i)
  {
    forall i | 0 <= i < |y|
      ensures RowMean([StepBack(y)[i], StepForward(y)[i]]) == IntendedAt(y, i)
    {
      IntendedCell(y, i);
    }
  }

  /**
    The estimator the documentation describes: the mean of the step back
    (y[i] - y[i-1]) and the step forward (y[i+1] - y[i]), NaN-skipping, so
    each end uses its single one-sided step and a one-row series has none.
   */
  function IntendedDerivative(y: seq<real>): (d: Column)
    ensures |d| == |y|
    ensures forall i {:trigger d[i]} :: 0 <= i < |y| ==> d[i] == IntendedAt(y, i)
  {
    var back := StepBack(y);
    var forward := StepForward(y);
    IntendedCells(y);
    seq(|y|, i requires 0 <= i < |y| => RowMean([back[i], forward[i]]))
  }

  /** On a straight line the intended estimator recovers the slope at every row. */
  lemma IntendedOnLine(y: seq<real>, slope: real)
    requires OnLine(y, slope)
    requires |y| >= 2
    ensures forall i {:trigger IntendedDerivative(y)[i]} :: 0 <= i < |y| ==> IntendedDerivative(y)[i] == Some(slope)
  {
  }

  /**
    The series 0, 1, 2 (the line of slope 1 through the origin, three rows):
    the code reports -2, -1.5, -1.5 where the documented estimator gives the
    slope 1 at every row.
   */
  lemma NaiveAgainstIntended(y: seq<real>)
    requires |y| == 3 && y[0] == 0.0 && OnLine(y, 1.0)
    ensures var d := NaiveDerivative(y); |d| == 3 && d[0] == -2.0 && d[1] == -1.5 && d[2] == -1.5
    ensures var e := IntendedDerivative(y);
      |e| == 3 && e[0] == Some(1.0) && e[1] == Some(1.0) && e[2] == Some(1.0)
  {
  }
}

=== FILE: ranking.dfy ===
/**
  `trending` of incline/trend.py: from each tagged estimator output keep the
  rows of the requested derivative order, keep the last k of those, pool all
  kept rows by `id`, and reduce each id's derivative values with max or mean.

  The code sorts nothing (pandas' groupby orders by id), so the result is a
  map from id to score: one entry per id that has a kept row.
 */
module Ranking {
  import opened Rows
  import Stats

  /** The two reductions the ranking is documented to accept. */
  datatype Aggregation = Max | Mean

  /**
    The aggregation a `max_or_avg` string selects: "avg" is renamed to
    pandas' "mean", every other string is handed to pandas as it is, so
    "mean" works too. Names pandas would interpret otherwise are not modelled.
   */
  function AggregationNamed(name: string): (a: Option<Aggregation>)
    ensures name == "max" ==> a == Some(Max)
    ensures name == "avg" || name == "mean" ==> a == Some(Mean)
    ensures a.Some? ==> name in {"max", "avg", "mean"}
  {
    var pandasName := if name == "avg" then "mean" else name;
    if pandasName == "max" then Some(Max)
    else if pandasName == "mean" then Some(Mean)
    else None
  }

  /**
    The Python slice s[-k:]. For k > 0 it keeps the last k items (all of them
    when there are fewer); because -0 is 0, k = 0 keeps everything; for k < 0
    it drops the first -k items.
   */
  function LastK<T>(s: seq<T>, k: int): (r: seq<T>)
    ensures k > 0 ==> |r| == if k < |s| then k else |s|
    ensures k == 0 ==> r == s
    ensures k < 0 ==> |r| == if -k < |s| then |s| + k else 0
    ensures r == s[|s| - |r|..]
  {
    var start := -k;
    var from :=
      if start < 0 then (if |s| + start < 0 then 0 else |s| + start)
      else (if start > |s| then |s| else start);
    s[from..]
  }

  /** The rows of one frame whose derivative order is `order`, in frame order. */
  function Matching(frame: seq<Tagged>, order: int): (r: seq<Tagged>)
    ensures |r| <= |frame|
    ensures forall x :: x in r <==> x in frame && x.row.derivativeOrder == order
  {
    if |frame| == 0 then []
    else
      assert forall x :: x in frame <==> x == frame[0] || x in frame[1..];
      (if frame[0].row.derivativeOrder == order then [frame[0]] else []) + Matching(frame[1..], order)
  }

  /** Filtering distributes over concatenation, so it keeps the frame's row order. */
  lemma {:induction false} MatchingAppend(a: seq<Tagged>, b: seq<Tagged>, order: int)
    ensures Matching(a + b, order) == Matching(a, order) + Matching(b, order)
  {
    if |a| == 0 {
      assert a + b == b;
    } else {
      assert (a + b)[1..] == a[1..] + b;
      MatchingAppend(a[1..], b, order);
    }
  }

  /**
    The rows one frame contributes: the last k rows of the requested order
    (all of them when k = 0), a suffix of that frame's matching rows.
   */
  function Window(frame: seq<Tagged>, order: int, k: int): (r: seq<Tagged>)
    ensures forall x :: x in r ==> x in frame && x.row.derivativeOrder == order
    ensures |r| <= |Matching(frame, order)|
    ensures r == Matching(frame, order)[|Matching(frame, order)| - |r|..]
    ensures k > 0 ==> |r| == if k < |Matching(frame, order)| then k else |Matching(frame, order)|
    ensures k == 0 ==> r == Matching(frame, order)
    ensures k < 0 ==> |r| == if -k < |Matching(frame, order)| then |Matching(frame, order)| + k else 0
  {
    var m := Matching(frame, order);
    var r := LastK(m, k);
    assert forall x :: x in r ==> x in m;
    r
  }

  /** A row contributes when it is in the window of one of the frames. */
  ghost predicate Contributes(frames: seq<seq<Tagged>>, order: int, k: int, x: Tagged)
  {
    exists f :: 0 <= f < |frames| && x in Window(frames[f], order, k)
  }

  /** The derivative values the rows of `id` contribute, across all frames. */
  ghost function ContributedValues(frames: seq<seq<Tagged>>, order: int, k: int, id: Id): set<real>
  {
    set f, x | 0 <= f < |frames| && x in Window(frames[f], order, k) && x.id == id
      :: x.row.derivativeValue
  }

  /** All contributing rows, frame after frame (pd.concat of the windows). */
  function Pooled(frames: seq<seq<Tagged>>, order: int, k: int): (rows: seq<Tagged>)
    ensures forall x :: x in rows <==> Contributes(frames, order, k, x)
  {
    if |frames| == 0 then []
    else
      var rest := Pooled(frames[1..], order, k);
      assert forall x :: Contributes(frames[1..], order, k, x) ==> Contributes(frames, order, k, x) by {
        forall x | Contributes(frames[1..], order, k, x)
          ensures Contributes(frames, order, k, x)
        {
          var f :| 0 <= f < |frames[1..]| && x in Window(frames[1..][f], order, k);
          assert frames[1..][f] == frames[f + 1];
        }
      }
      assert forall x :: Contributes(frames, order, k, x) ==>
        x in Window(frames[0], order, k) || Contributes(frames[1..], order, k, x) by {
        forall x | Contributes(frames, order, k, x)
          ensures x in Window(frames[0], order, k) || Contributes(frames[1..], order, k, x)
        {
          var f :| 0 <= f < |frames| && x in Window(frames[f], order, k);
          if f > 0 {
            assert frames[1..][f - 1] == frames[f];
          }
        }
      }
      Window(frames[0], order, k) + rest
  }

  /**
    Pooling distributes over concatenation of the frame lists: every window
    row is kept, repeats included, frame after frame.
   */
  lemma {:induction false} PooledAppend(f: seq<seq<Tagged>>, g: seq<seq<Tagged>>, order: int, k: int)
    ensures Pooled(f + g, order, k) == Pooled(f, order, k) + Pooled(g, order, k)
  {
    if |f| == 0 {
      assert f + g == g;
    } else {
      assert (f + g)[0] == f[0];
      assert (f + g)[1..] == f[1..] + g;
      PooledAppend(f[1..], g, order, k);
    }
  }

  /** The ids present among some rows. */
  function IdsOf(rows: seq<Tagged>): set<Id>
  {
    set x | x in rows :: x.id
  }

  /** The derivative values of the rows carrying `id`, in row order (one group of the groupby). */
  function GroupValues(rows: seq<Tagged>, id: Id): (vs: seq<real>)
    ensures |vs| > 0 <==> id in IdsOf(rows)
    ensures forall v :: v in vs <==> exists x :: x in rows && x.id == id && x.row.derivativeValue == v
  {
    if |rows| == 0 then []
    else
      assert forall x :: x in rows <==> x == rows[0] || x in rows[1..];
      (if rows[0].id == id then [rows[0].row.derivativeValue] else []) + GroupValues(rows[1..], id)
  }

  /** An id has a row in the pooled frame exactly when it has a contributed value. */
  lemma PooledId(frames: seq<seq<Tagged>>, order: int, k: int, id: Id)
    ensures id in IdsOf(Pooled(frames, order, k)) <==> ContributedValues(frames, order, k, id) != {}
  {
    var rows := Pooled(frames, order, k);
    if id in IdsOf(rows) {
      var x :| x in rows && x.id == id;
      var f :| 0 <= f < |frames| && x in Window(frames[f], order, k);
      assert x.row.derivativeValue in ContributedValues(frames, order, k, id);
    }
    if ContributedValues(frames, order, k, id) != {} {
      var v :| v in ContributedValues(frames, order, k, id);
      var f, x :| 0 <= f < |frames| && x in Window(frames[f], order, k) && x.id == id
                  && x.row.derivativeValue == v;
      assert Contributes(frames, order, k, x);
      assert x in rows;
    }
  }

  /** `PooledId` for every id. */
  lemma PooledIds(frames: seq<seq<Tagged>>, order: int, k: int)
    ensures forall id :: id in IdsOf(Pooled(frames, order, k)) <==> ContributedValues(frames, order, k, id) != {}
  {
    forall id
      ensures id in IdsOf(Pooled(frames, order, k)) <==> ContributedValues(frames, order, k, id) != {}
    {
      PooledId(frames, order, k, id);
    }
  }

  /** The reduction of one non-empty group: pandas' max, or its arithmetic mean. */
  function Reduce(agg: Aggregation, vs: seq<real>): (score: real)
    requires |vs| > 0
  {
    match agg
    case Max => Stats.Max(vs)
    case Mean => Stats.Mean(vs)
  }

  /**
    trending: one score per id that has a contributing row. An empty list of
    frames has nothing to concatenate, which pandas reports as an error:
    that is the `None` result. Defaults as in the code: first derivative, max,
    last 5 rows.
   */
  function Trending(frames: seq<seq<Tagged>>, order: int := 1, agg: Aggregation := Max,
                    k: int := 5): (r: Option<map<Id, real>>)
    ensures r.None? <==> |frames| == 0
    ensures r.Some? ==> forall id :: id in r.value <==> ContributedValues(frames, order, k, id) != {}
  {
    if |frames| == 0 then None
    else
      var rows := Pooled(frames, order, k);
      var scores := map id | id in IdsOf(rows) :: Reduce(agg, GroupValues(rows, id));
      PooledIds(frames, order, k);
      Some(scores)
  }

  /** One id's group in the pooled frame holds exactly the values that id contributes. */
  lemma GroupIsContributed(frames: seq<seq<Tagged>>, order: int, k: int, id: Id)
    ensures forall v :: v in GroupValues(Pooled(frames, order, k), id)
                        <==> v in ContributedValues(frames, order, k, id)
  {
  }

  /**
    With the name "max", an id's score is one of the values it contributes
    and no contributed value exceeds it, whichever frames those rows came from.
   */
  lemma TrendingMax(frames: seq<seq<Tagged>>, order: int, name: string, k: int, id: Id)
    requires |frames| > 0
    requires AggregationNamed(name) == Some(Max)
    ensures var scores := Trending(frames, order, AggregationNamed(name).value, k).value;
            id in scores ==>
              && scores[id] in ContributedValues(frames, order, k, id)
              && forall v :: v in ContributedValues(frames, order, k, id) ==> v <= scores[id]
  {
    if id !in Trending(frames, order, Max, k).value {
      return;
    }
    var vs := GroupValues(Pooled(frames, order, k), id);
    var score := Trending(frames, order, Max, k).value[id];
    assert score == Stats.Max(vs);
    GroupIsContributed(frames, order, k, id);
    var i :| 0 <= i < |vs| && vs[i] == score;
    assert score in vs;
    forall v | v in ContributedValues(frames, order, k, id)
      ensures v <= score
    {
      var j :| 0 <= j < |vs| && vs[j] == v;
    }
  }

  /** Some lowest and some highest member of `values` enclose `score`. */
  ghost predicate Spans(values: set<real>, score: real)
  {
    exists lo, hi :: lo in values && hi in values && lo <= score <= hi
      && forall v :: v in values ==> lo <= v <= hi
  }

  /** Two members that bound every member and enclose `score` witness `Spans`. */
  lemma SpansBy(values: set<real>, score: real, lo: real, hi: real)
    requires lo in values && hi in values && lo <= score <= hi
    requires forall v :: v in values ==> lo <= v <= hi
    ensures Spans(values, score)
  {
  }

  /**
    With the name "avg" (or "mean"), an id's score lies between the smallest
    and the largest value it contributes.
   */
  lemma TrendingMean(frames: seq<seq<Tagged>>, order: int, name: string, k: int, id: Id)
    requires |frames| > 0
    requires AggregationNamed(name) == Some(Mean)
    ensures var scores := Trending(frames, order, AggregationNamed(name).value, k).value;
            id in scores ==> Spans(ContributedValues(frames, order, k, id), scores[id])
  {
    if id !in Trending(frames, order, Mean, k).value {
      return;
    }
    var vs := GroupValues(Pooled(frames, order, k), id);
    var score := Trending(frames, order, Mean, k).value[id];
    var values := ContributedValues(frames, order, k, id);
    assert score == Stats.Mean(vs);
    GroupIsContributed(frames, order, k, id);
    var lo, hi := Stats.Min(vs), Stats.Max(vs);
    var i :| 0 <= i < |vs| && vs[i] == lo;
    var j :| 0 <= j < |vs| && vs[j] == hi;
    assert lo in vs && hi in vs;
    forall v | v in values
      ensures lo <= v <= hi
    {
      var m :| 0 <= m < |vs| && vs[m] == v;
    }
    SpansBy(values, score, lo, hi);
  }
}

=== FILE: rows.dfy ===
/**
  The data contract shared by every trend estimator: an input sample, the
  output row (index label, value and five estimator
  columns), and a row tagged with the id of the series it came
  from (the column callers add before ranking).
 */
module Rows {

  /** A possibly-missing value; `None` plays the part of pandas' NaN / absent column. */
  datatype Option<+T> = None | Some(value: T)

  /** Identifier of one time series, as stored in the `id` column. */
  type Id = string

  /** One input row: its index label (a timestamp) and its `value` column. */
  datatype Sample = Sample(time: int, value: real)

  /**
    One output row. `time` and `value` are copied from the input row (the
    estimators start from a copy of the input frame); the other fields are the
    columns the estimators add.
   */
  datatype TrendRow = TrendRow(
    time: int,
    value: real,
    functionOrder: Option<int>,
    smoothedValue: Option<real>,
    derivativeMethod: string,
    derivativeOrder: int,
    derivativeValue: real)

  /** A trend row carrying the `id` column of its series. */
  datatype Tagged = Tagged(id: Id, row: TrendRow)

  /** The value column of a series. */
  function Values(series: seq<Sample>): (ys: seq<real>)
  {
    seq(|series|, i requires 0 <= i < |series| => series[i].value)
  }

  /**
    The output of an estimator keeps the input frame: one row per input row,
    same order, same index label and same value.
   */
  ghost predicate Aligned(table: seq<TrendRow>, series: seq<Sample>)
  {
    && |table| == |series|
    && forall i :: 0 <= i < |table| ==>
         table[i].time == series[i].time && table[i].value == series[i].value
  }
}

=== FILE: stats.dfy ===
/**
  The reductions pandas applies to a column of reals in the ranking: max and
  mean, with sum and min as helpers for the mean's bounds.
 */
module Stats {

  function Sum(xs: seq<real>): real
  {
    if |xs| == 0 then 0.0 else xs[0] + Sum(xs[1..])
  }

  /** The largest element: an upper bound that is itself an element. */
  function Max(xs: seq<real>): (m: real)
    requires |xs| > 0
    ensures forall i :: 0 <= i < |xs| ==> xs[i] <= m
    ensures exists i :: 0 <= i < |xs| && xs[i] == m
  {
    if |xs| == 1 then xs[0]
    else
      var rest := Max(xs[1..]);
      assert forall i :: 1 <= i < |xs| ==> xs[i] == xs[1..][i - 1];
      if xs[0] >= rest then xs[0] else rest
  }

  /** The smallest element: a lower bound that is itself an element. */
  function Min(xs: seq<real>): (m: real)
    requires |xs| > 0
    ensures forall i :: 0 <= i < |xs| ==> m <= xs[i]
    ensures exists i :: 0 <= i < |xs| && xs[i] == m
  {
    if |xs| == 1 then xs[0]
    else
      var rest := Min(xs[1..]);
      assert forall i :: 1 <= i < |xs| ==> xs[i] == xs[1..][i - 1];
      if xs[0] <= rest then xs[0] else rest
  }

  /** n copies of c added up, without a multiplication. */
  function Copies(n: nat, c: real): real
  {
    if n == 0 then 0.0 else c + Copies(n - 1, c)
  }

  /** Adding up n copies of c is multiplying c by n. */
  lemma {:induction false} CopiesIsProduct(n: nat, c: real)
    ensures Copies(n, c) == (n as real) * c
  {
    if n > 0 {
      CopiesIsProduct(n - 1, c);
      assert (n as real) * c == ((n - 1) as real) * c + c;
    }
  }

  /** A sum of n terms each within [lo, hi] lies within [n copies of lo, n copies of hi]. */
  lemma {:induction false} SumBetween(xs: seq<real>, lo: real, hi: real)
    requires forall i :: 0 <= i < |xs| ==> lo <= xs[i] <= hi
    ensures Copies(|xs|, lo) <= Sum(xs) <= Copies(|xs|, hi)
  {
    if |xs| > 0 {
      assert forall i :: 0 <= i < |xs[1..]| ==> xs[1..][i] == xs[i + 1];
      SumBetween(xs[1..], lo, hi);
    }
  }

  /** The arithmetic mean lies between the smallest and the largest element. */
  function Mean(xs: seq<real>): (m: real)
    requires |xs| > 0
    ensures Min(xs) <= m <= Max(xs)
  {
    SumBetween(xs, Min(xs), Max(xs));
    QuotientBetween(Sum(xs), |xs|, Min(xs), Max(xs));
    Sum(xs) / (|xs| as real)
  }

  /** A total within [count copies of lo, count copies of hi], shared out over count, lies within [lo, hi]. */
  lemma QuotientBetween(total: real, count: nat, lo: real, hi: real)
    requires count > 0
    requires Copies(count, lo) <= total <= Copies(count, hi)
    ensures lo <= total / (count as real) <= hi
  {
    CopiesIsProduct(count, lo);
    CopiesIsProduct(count, hi);
    DivideBetween(total, count as real, lo, hi);
  }

  /** Dividing a total within [n * lo, n * hi] by n > 0 lands within [lo, hi]. */
  lemma DivideBetween(total: real, n: real, lo: real, hi: real)
    requires n > 0.0
    requires n * lo <= total <= n * hi
    ensures lo <= total / n <= hi
  {
  }
}
